=== FILE: README.md ===
# snek — a Dafny model of the game core

snek is a grid snake game built on ggez. A `Game` owns a `Snake`, a list of `Food` items, a
`u32` score, a `GameState` (`ToBegin`, `Playing`, `GameOver`), a `Yield` that times the
pause after a game ends, and a `HighscoreService` that keeps the best score in a text file.

The model covers the following:

- **One update pass.** In `Playing` the snake takes a throttled step. A step off the grid
  or into the body ends the game and resets it. Otherwise the game looks for food under
  the new head: eating removes the item, places a replacement, adds one to the score and
  makes the snake grow on its next step.
- **The post-game pause.** In `GameOver` the pause runs. When it completes, the score is
  registered as a possible highscore and the game waits for Space again.
- **Key handling.** Direction keys steer the snake, but a body of two or more parts may not
  reverse.

Modules, one per source file:

| module | source | form |
|---|---|---|
| `Geometry` | cell arithmetic shared by all files | functions and lemmas |
| `Foods` | `src/classes/food.rs` | datatype and functions |
| `Snakes` | `src/classes/snake.rs` | class `Snake` over the pure spec function `Step` |
| `Yielding` | `src/classes/yield.rs` | class `Yield` over the spec function `YieldAfter` |
| `Highscores` | `src/services/highscore.rs` | class `HighscoreService` over `ReadThrough`, `CheckNew`, `Register` |
| `Session` | `src/classes/game.rs` | class `Game` |

The `Snake`, `Yield` and `HighscoreService` methods state their new state through a pure
function of the old state (`Step`, `YieldAfter`, `ReadThrough`, `CheckNew`, `Register`), and
the properties are proved as lemmas about those functions. The `Game` methods state their
new state clause by clause, with named predicates for how food was placed or eaten;
`Update` states it only in part (see "## Left out"). Every class keeps an invariant.
`Game.Valid()` is kept by every operation (the one exception is a panic). It states:

- the body is in the grid, has no repeated cell and is connected;
- food lies in the grid, off the snake, with no two items on one cell;
- outside `GameOver`, the score plus one equals the body length plus the pending growth;
- outside `Playing`, the snake is the fresh one at the centre.

From this the model proves that the score never exceeds the number of cells, so its `u32`
addition cannot overflow.

Units and representations:

- Cells are integers.
- Time is whole milliseconds. The snake's interval is `1000 / updates_per_second`. The
  pause threshold of 3 (`Yield::new(3f32)`) becomes 3000, set against 50 × the frame time in
  milliseconds. This preserves the source's comparison `50 · secs > 3`.
- The caller supplies the outside world as values: the frame time, the number of ticks the
  timer releases, the random draws, the highscore file, and whether opening or writing the
  file fails.

The model follows the code, including where it behaves in ways a reader might not expect:

- Direction keys are applied in `GameOver` too (game.rs:231-259 only special-cases
  `ToBegin`).
- A successful file read is not cached (highscore.rs:34).
- The file is written without truncation (highscore.rs:53-64).

## Model

| member | source | states |
|---|---|---|
| Geometry.Advance | src/classes/snake.rs:59-64 | the new front is an edge neighbour of the head: Left lowers x, Right raises x, Up lowers y, Down raises y |
| Geometry.Opposite | src/classes/game.rs:249-254 | the denied direction is never the heading itself, and stepping in it undoes a step in the heading |
| Geometry.OppositeInvolutive | src/classes/game.rs:249-254 | the denial table pairs the directions: the opposite of the opposite is the direction itself |
| Session.KeyDirection | src/classes/game.rs:239-245 | A and Left ask for left, D and Right for right, W and Up for up, S and Down for down; every other key asks for nothing |
| Geometry.Any | src/classes/snake.rs:107-109 | `iter().any` is true exactly when some element satisfies the predicate |
| Geometry.DistinctCellsFit | src/classes/game.rs:113 | distinct in-grid cells number at most columns × rows; with the score tied to the body length, the `u32` score increment cannot overflow |
| Session.StepInterval | src/classes/snake.rs:41 | the interval in milliseconds is the largest whole number of milliseconds that fits `updates_per_second` times into a second |
| Session.Centre | src/classes/game.rs:62-65 | the start cell is inside any non-empty grid, and exactly half way along each even side |
| Foods.NewFood | src/classes/food.rs:12-17 | an item made at (x, y) keeps the given width, occupies (x, y) and occupies no other cell |
| Foods.CollidesExactlyAtPosition | src/classes/food.rs:30-32 | `Food.WouldCollide` (`would_collide`) holds exactly when (x, y) is the item's position |
| Snakes.Snake.constructor | src/classes/snake.rs:34-44 | one part at the given cell, heading right, not growing, throttle at the -1 sentinel so the first call steps |
| Snakes.Snake.MoveSnake | src/classes/snake.rs:46-89 | while throttled: `DidNotMove`, only the accumulator grows by delta; otherwise: accumulator 0, growth consumed, and result and body are those of `Step` on the old body, heading and growth flag; the heading is never changed |
| Snakes.Snake.WouldCollide | src/classes/snake.rs:107-109 | true exactly when (x, y) is one of the parts |
| Snakes.Step | src/classes/snake.rs:54-88 | a step that the throttle lets through either moves or ends the game; ending the game pushes nothing, and moving puts an edge neighbour of the old head in front of the kept body |
| Snakes.StepMovedShape | src/classes/snake.rs:54-88 | after a moving step the head is the old head advanced by one cell; the body grows by one exactly when the snake had just eaten, and otherwise the old tail is gone |
| Snakes.StepOffGrid | src/classes/snake.rs:73-80 | a front outside the grid on any side ends the game, and the off-grid cell is not pushed |
| Snakes.StepIntoBody | src/classes/snake.rs:82-84 | a front on any part other than the tail ends the game |
| Snakes.StepIntoFreeCell | src/classes/snake.rs:73-88 | a front inside the grid and on no part moves the snake |
| Snakes.StepIntoVacatedTail | src/classes/snake.rs:66-84 | the tail step happens before the collision test: moving onto the old tail cell succeeds when not growing and ends the game when growing |
| Snakes.StepPreservesWellFormed | src/classes/snake.rs:54-88 | a moving step keeps the body non-empty, inside the grid, free of repeated cells and connected |
| Snakes.ThreeStepsRight | src/classes/snake.rs:46-89 | from (10, 10) at 200 ms per step, the first call steps at once; a call that finds the interval reached steps and sets the count back to zero without adding its own time, so 200 ms calls step on every other call: five calls give three steps, head (13, 10) and length 1 |
| Snakes.LeftEdgeEndsGame | src/classes/snake.rs:73-75 | a snake at x = 0 heading left ends the game on its next step |
| Yielding.YieldAfter | src/classes/yield.rs:17-28 | a call that does not complete stores a time no larger than the threshold |
| Yielding.QuietRunAccumulates | src/classes/yield.rs:17-28 | over calls none of which completes, the stored time is the start plus 50 × the sum of the deltas, and that sum stays within the threshold, so the pause ends once the scaled deltas exceed it |
| Yielding.QuietStepGrows | src/classes/yield.rs:19-26 | across a call that does not complete, the stored time never decreases |
| Yielding.CompletedRestartsCycle | src/classes/yield.rs:21-23 | a call completes only when the total is strictly above the threshold, and it clears the stored time, so the next call counts from 0 |
| Yielding.Yield.constructor | src/classes/yield.rs:10-15 | the given threshold, with no time gathered |
| Yielding.Yield.CompletedYield | src/classes/yield.rs:17-28 | completes exactly when stored time (none as 0) plus 50 × delta is strictly above the threshold, and then clears the stored time; otherwise stores the new total |
| Highscores.Decimal | src/services/highscore.rs:63 | `to_string` gives at least one digit, only digits, and no leading zero unless the number is 0 |
| Highscores.ParseU32 | src/services/highscore.rs:34 | a successful parse is below 2^32 |
| Highscores.ParseDecimal | src/services/highscore.rs:63 | parsing the printed text of any `u32` gives the number back |
| Highscores.DecimalLengthMonotone | src/services/highscore.rs:63-64 | a larger number never prints shorter |
| Highscores.WriteAtStart | src/services/highscore.rs:53-64 | the text starts with the data; old text beyond the data survives; the length is the larger of the two |
| Highscores.Opened | src/services/highscore.rs:53-61 | opening with `create(true)` never leaves the file missing: a missing file becomes empty text, any other file is left as it is |
| Highscores.Written | src/services/highscore.rs:63-64 | a readable file stays readable, starts with the data and never gets shorter; other files are unchanged |
| Highscores.CanonicalOverwrite | src/services/highscore.rs:53-64 | writing a score's text at the start of a file holding the text of a score no larger leaves exactly the new text |
| Highscores.StaleTailExample | src/services/highscore.rs:53-64 | without truncation, a file holding "0007" (parsed as 7) becomes "1007" when 10 is written, so it then reads as 1007 |
| Highscores.ReadThrough | src/services/highscore.rs:25-46 | whenever a cache results, the lookup returns that cached value; the cache changes only when it was empty and the file missing, and then holds 0; a failure happens only with an empty cache, and it is an IO error exactly when the file cannot be read |
| Highscores.CheckNew | src/services/highscore.rs:17-23 | the cache is as the lookup leaves it, and the check panics exactly when the lookup fails, with the lookup's error |
| Highscores.Register | src/services/highscore.rs:48-72 | it panics exactly when the check does; a failure is an IO error that needs a failing open or write; the cache moves past the lookup's only on a registered score and then holds it; the file changes only for a new highscore, and is then readable text; a new highscore with no fault is registered and the file is the opened file with the score's decimal text written at its start |
| Highscores.CachedIgnoresFile | src/services/highscore.rs:26-28 | a cached value is returned whatever the file holds, and the cache stays |
| Highscores.UncachedRead | src/services/highscore.rs:30-45 | with no cache: a missing file reads 0 and caches 0; another read failure is an IO error; a readable file yields its parse or a parsing error, and neither caches |
| Highscores.NewHighscoreIsStrict | src/services/highscore.rs:17-23 | a score is new exactly when the current highscore is strictly below it |
| Highscores.NotNewWritesNothing | src/services/highscore.rs:49-51 | a score that is not new returns `Ok` with the file untouched |
| Highscores.RegisterThenGet | src/services/highscore.rs:48-72 | after a successful write of a new highscore, every later lookup returns it, whatever the file then holds |
| Highscores.FailedWriteKeepsCache | src/services/highscore.rs:58-68 | a failed open or write is an IO error that leaves the cache as the lookup left it |
| Highscores.FirstHighscorePersisted | src/services/highscore.rs:48-72 | with no file and nothing but 0 cached, a positive score is registered, the file is created holding exactly its decimal text, and a fresh read returns the score |
| Highscores.PersistedHighscore | src/services/highscore.rs:48-72 | when the file holds the current highscore's text and a larger score is registered, the file ends up holding exactly the new score's text, and a fresh read returns the new score |
| Highscores.HighscoreService.Start | src/services/highscore.rs:11-15 | nothing cached |
| Highscores.HighscoreService.GetHighscore | src/services/highscore.rs:25-46 | result and cache are those of `ReadThrough` on the old cache and the file |
| Highscores.HighscoreService.IsNewHighscore | src/services/highscore.rs:17-23 | verdict (or the panic of its `unwrap`) and cache are those of `CheckNew` |
| Highscores.HighscoreService.RegisterScore | src/services/highscore.rs:48-72 | outcome, cache and file afterwards are those of `Register` |
| Highscores.MissingFileScenario | src/services/highscore.rs:25-72 | with no file the highscore reads 0; registering 5 makes it 5; registering 3 afterwards leaves 5 |
| Session.Steer | src/classes/game.rs:239-259 | the heading either stays or becomes the key's direction; a non-direction key changes nothing; a body of one part takes any direction key; a body of two or more parts takes every direction except the reverse of the heading, and never reverses |
| Session.Game.constructor | src/classes/game.rs:53-83 | waiting to begin, score 0, no food, a one-part snake at the centre heading right, pause and cache empty, and the game invariant holds |
| Session.Game.AddNewFood | src/classes/game.rs:120-139 | the first draw on no food item and no part is appended as a new item of the game's width; every earlier draw was occupied; if no draw is free nothing changes; food stays clear of the snake and pairwise distinct |
| Session.Game.ResetGame | src/classes/game.rs:91-101 | state `GameOver`, score kept, a fresh snake at the centre heading right, the food list reduced to one item on the first draw off the centre, invariant restored; placement stalls only when every draw is the centre |
| Session.Game.LookForFoodEaten | src/classes/game.rs:103-118 | if an item is under the head: score +1, growth pending, that one item removed and a replacement appended on the first draw clear of the body and the food; placement stalls only when every draw is occupied; otherwise nothing changes; the invariant holds afterwards |
| Session.Game.Tick | src/classes/game.rs:144-165 | `ToBegin`: nothing changes. `GameOver`: the pause runs, and when it completes the state becomes `ToBegin` and the score is registered (a registration error panics; otherwise the score is cleared). `Playing`: throttle; reset on collision, the food then being exactly one item on the first draw off the centre (none when stalled); or move and eat, with `Stalled` only when every draw was occupied. The invariant holds unless it panics; a single food item stays single |
| Session.Game.AwaitRestart | src/classes/game.rs:148-157 | the pause advances by `YieldAfter`; on completion the state is `ToBegin` and cache and file are as `Register` leaves them; the score is cleared on success and the pass panics on a registration error |
| Session.Game.Play | src/classes/game.rs:159-164 | throttled: only the accumulator moves; a colliding `Step`: state `GameOver` with a fresh snake and the food exactly one item on the first draw off the centre, or none when stalled; a moving `Step`: the body is the stepped body, and food under the new head is eaten (score +1, that item replaced from the first free draw) or nothing else changes; a stall means every draw was occupied |
| Session.Game.Update | src/classes/game.rs:143-168 | the invariant holds after any number of passes (unless one panics); a single food item stays single; in `ToBegin` nothing changes; while play continues the score never decreases |
| Session.Game.KeyDown | src/classes/game.rs:224-260 | in `ToBegin` only Space acts, starting play; in any other state the state stays and the heading becomes `Steer` of the old heading, the key and the body length |
| Session.PlaceAsWritten | src/classes/game.rs:120-139 | as written: the result is a draw whose unrounded coordinates match no item and no part, every earlier draw matching one, stored rounded down; no result only when every draw matches |
| Session.FoodOnSnakeAsWritten | src/classes/game.rs:124-133 | the draw (3.5, 4.25) passes the test against a snake at (3, 4), and the stored item lands on the snake |
| Session.Begin | src/main.rs:34-35 | a 20 × 20 game at five updates a second, with food added at startup and Space pressed, is playing with one part at (10, 10) and one item |
| Session.ApproachFood | src/classes/game.rs:159-163 | the first pass steps at once; after that, 200 ms passes step on every other pass: after three passes the snake is at (12, 10), one part, score 0 |
| Session.EatFood | src/classes/game.rs:103-118 | the step onto the item scores 1 and sets growth pending; the eaten item is replaced by exactly one item, on the first free draw |
| Session.GrowAfterEating | src/classes/snake.rs:66-71 | the next step keeps the tail: the body is (14, 10), (13, 10) |

## Left out

- Drawing is not modelled: `draw`, `render`, fonts, window size, colours, and the item width beyond being stored. The `GameOver` and `ToBegin` screens call `is_new_highscore` and `get_highscore`, which can fill the cache or panic; those calls are not modelled.
- `timer::check_update_time` and `timer::delta` are not modelled. The number of passes and the frame time are parameters, in whole milliseconds.
- f32 arithmetic is not modelled. Positions are integers; the centre is whole because the grid sides are required to be even. The snake interval is `1000 / updates_per_second` rounded down.
- The random generator is not modelled. Draws are a parameter, and every draw is assumed inside the grid. Where the draws run out, the model reports `Stalled`; the program would keep drawing, forever on a full grid.
- Real file I/O is not modelled. The file is a value: missing, readable text, or failing. A read that fails for a reason other than absence, non-UTF-8 content included, is the `IoFail` case. A short write is not modelled: a successful `write` writes every byte.
- `main.rs` window setup and the event loop are not modelled. `Session.Begin` models only `Game::new`, `add_new_food`, then a Space key press.
- game.rs:62-65 and game.rs:94-97 call `Snake::new` with two arguments while it takes three. The model passes the game's own update rate.
- The `match` at game.rs:161-164 has no `DidNotMove` arm. The model does nothing for that result.
- Snakes.Snake.MoveSnake: requires a non-empty body instead of modelling the `expect` panic at snake.rs:56. The game never calls it on an empty body.
- Session.Game.Update: states the invariant, food count, `ToBegin` inertness and score monotonicity across passes, but not each pass's full effect. That effect is `Session.Game.Tick`'s contract.
- Odd grid sides are not modelled: the centre would fall between cells. Grids with 2^32 cells or more are not modelled either: the score bound would no longer fit a `u32`.
- Highscores.WriteAtStart: overwrites characters, while highscore.rs:64 writes the bytes of the text. The two agree when the old file text is ASCII, as the digits the program writes are; a non-ASCII old text would be overwritten differently.
- Highscores.HighscoreService.RegisterScore: requires a score below 2^32, which the `u32` parameter guarantees in the source.

## Findings

| source | as written | input that shows it | evidently intended | confidence | as-written member | corrected member |
|---|---|---|---|---|---|---|
| src/classes/game.rs:124-133 | the random draw is checked against food and snake unrounded, but stored rounded down | a snake on (3, 4) and the draw (3.5, 4.25): no part equals (3.5, 4.25), so the draw passes, and the item is stored on (3, 4) under the snake | check and store the same whole cell, so new food never lands on the snake or on other food | not executed | Session.PlaceAsWritten, Session.FoodOnSnakeAsWritten | Session.Game.AddNewFood |

=== FILE: food.dfy ===
/** A food item: a cell and the width it is drawn with. */
module Foods {
  import opened Geometry

  datatype Food = Food(position: Pos, width: real) {
    /** The item occupies cell (x, y): both coordinates match exactly. */
    predicate WouldCollide(x: int, y: int) {
      position.x == x && position.y == y
    }
  }

  /** `Food::new`: an item at (x, y) drawn `width` wide; it occupies (x, y) and no other cell. */
  function NewFood(x: int, y: int, width: real): (f: Food)
    ensures f.width == width
    ensures f.WouldCollide(x, y)
    ensures forall a, b :: f.WouldCollide(a, b) ==> a == x && b == y
  {
    Food(Pos(x, y), width)
  }

  /** An item collides with (x, y) exactly when (x, y) is its position. */
  lemma CollidesExactlyAtPosition(f: Food, x: int, y: int)
    ensures f.WouldCollide(x, y) <==> f.position == Pos(x, y)
  {
  }
}

=== FILE: game.dfy ===
/**
 * The game session: the state machine over `ToBegin`, `Playing` and `GameOver`, the snake
 * it drives, the food it places, the score and the highscore it registers. Frame time,
 * random draws and the highscore file come in as parameters.
 */
module Session {
  import opened Options
  import opened Geometry
  import opened Foods
  import opened Snakes
  import opened Yielding
  import opened Highscores

  datatype GameState = Playing | ToBegin | GameOver

  /** The keys the game tells apart; every other key is `OtherKey`. */
  datatype Key = Space | A | D | W | S | ArrowLeft | ArrowRight | ArrowUp | ArrowDown | OtherKey

  /** Time is counted in milliseconds. */
  const MillisPerSecond: nat := 1000

  /** The post-game delay `Yield::new(3f32)`, in the same unit as the scaled frame time. */
  const GameOverDelay: nat := 3 * MillisPerSecond

  /** The snake's step interval, one second divided by the update rate. */
  function StepInterval(updatesPerSecond: nat): (r: nat)
    requires updatesPerSecond > 0
    ensures r * updatesPerSecond <= MillisPerSecond < (r + 1) * updatesPerSecond
  {
    MillisPerSecond / updatesPerSecond
  }

  /** The cell the snake starts from: half the columns, half the rows. */
  function Centre(columns: int, rows: int): (c: Pos)
    ensures columns > 0 && rows > 0 ==> InBounds(c, columns, rows)
    ensures columns % 2 == 0 ==> 2 * c.x == columns
    ensures rows % 2 == 0 ==> 2 * c.y == rows
  {
    Pos(columns / 2, rows / 2)
  }

  /** Grids the model covers: even sides, so the centre is a whole cell, and fewer than 2^32 cells, so the score fits a `u32`. */
  predicate GridDimensions(columns: int, rows: int) {
    && columns > 0 && rows > 0
    && columns % 2 == 0 && rows % 2 == 0
    && columns * rows < U32Limit
  }

  /** Draws of the random generator: cells inside the grid, as `gen_range(0, columns)` and `gen_range(0, rows)` give them. */
  predicate SamplesInGrid(samples: seq<Pos>, columns: int, rows: int) {
    forall i :: 0 <= i < |samples| ==> InBounds(samples[i], columns, rows)
  }

  /** A cell no food item and no part of the snake occupies. */
  predicate Free(c: Pos, food: seq<Food>, parts: seq<Pos>) {
    && (forall i :: 0 <= i < |food| ==> food[i].position != c)
    && c !in parts
  }

  /** Placed food: inside the grid, drawn at the game's width, on no part of `parts`, and no two items on one cell. */
  ghost predicate FoodPlaced(food: seq<Food>, parts: seq<Pos>, columns: int, rows: int, width: real) {
    && (forall i :: 0 <= i < |food| ==> InBounds(food[i].position, columns, rows))
    && (forall i :: 0 <= i < |food| ==> food[i].position !in parts)
    && (forall i :: 0 <= i < |food| ==> food[i].width == width)
    && (forall i, j :: 0 <= i < j < |food| ==> food[i].position != food[j].position)
  }

  /**
   * How a placement used its draws: one that placed an item stopped at the first free draw,
   * every earlier draw being occupied; one that stalled found every draw occupied.
   */
  predicate PlacementChose(samples: seq<Pos>, used: nat, placed: bool, food: seq<Food>, parts: seq<Pos>) {
    && used <= |samples|
    && (placed ==> used >= 1 && Free(samples[used - 1], food, parts))
    && (!placed ==> used == |samples|)
    && (forall k :: 0 <= k < used && !(placed && k == used - 1) ==> !Free(samples[k], food, parts))
  }

  /** Some food item is on cell `c`. */
  predicate FoodAt(food: seq<Food>, c: Pos) {
    exists i :: 0 <= i < |food| && food[i].position == c
  }

  /** `after` is `before` with one item on cell `c` removed and `added` appended. */
  predicate EatenFrom(before: seq<Food>, after: seq<Food>, c: Pos, added: seq<Food>) {
    exists i :: 0 <= i < |before| && before[i].position == c && after == before[..i] + before[i + 1..] + added
  }

  /** The direction a key asks for, if it is one of the direction keys. */
  function KeyDirection(key: Key): (r: Option<Direction>)
    ensures r.None? <==> key == Space || key == OtherKey
    ensures r == Some(Left) <==> key == A || key == ArrowLeft
    ensures r == Some(Right) <==> key == D || key == ArrowRight
    ensures r == Some(Up) <==> key == W || key == ArrowUp
    ensures r == Some(Down) <==> key == S || key == ArrowDown
  {
    match key
    case A | ArrowLeft => Some(Left)
    case D | ArrowRight => Some(Right)
    case W | ArrowUp => Some(Up)
    case S | ArrowDown => Some(Down)
    case _ => None
  }

  /**
   * The heading after a key press outside `ToBegin`: a direction key turns the snake unless
   * it asks for the reverse of the current heading while the body has two or more parts.
   */
  function Steer(current: Direction, key: Key, length: nat): (d: Direction)
    ensures d == current || KeyDirection(key) == Some(d)
    ensures KeyDirection(key).None? ==> d == current
    ensures length >= 2 ==> d != Opposite(current)
    ensures length < 2 && KeyDirection(key).Some? ==> d == KeyDirection(key).value
    ensures length >= 2 && KeyDirection(key).Some? && KeyDirection(key).value != Opposite(current) ==> d == KeyDirection(key).value
  {
    match KeyDirection(key)
    case None => current
    case Some(requested) => if length < 2 || requested != Opposite(current) then requested else current
  }

  /**
   * What one pass of the update loop ends in: the pass continues the loop, the loop body
   * returned (in `ToBegin` and `GameOver`), food placement used up the draws it was given
   * (the program would still be drawing), or an `unwrap` panicked on a highscore error.
   */
  datatype TickOutcome = Continued | Returned | Stalled | Crashed(cause: HighscoreError)

  class Game {
    var snake: Snake
    var food: seq<Food>
    var score: nat
    var state: GameState
    const gameOverYield: Yield
    const highscorer: HighscoreService
    const columns: int
    const rows: int
    const itemWidth: real
    const updatesPerSecond: nat

    /** What holds whatever the snake and the food are: the settings and the two helpers. */
    ghost predicate Settled()
      reads this, gameOverYield, highscorer
    {
      && GridDimensions(columns, rows)
      && updatesPerSecond > 0
      && gameOverYield.Valid() && gameOverYield.timeToYield == GameOverDelay
      && highscorer.Valid()
      && score <= columns * rows
    }

    /** The snake is this game's: paced at the game's rate, drawn at its width, alive and in the grid. */
    ghost predicate SnakeSettled()
      reads this, snake
    {
      && snake.Valid()
      && updatesPerSecond > 0
      && snake.updateAfterDelta == StepInterval(updatesPerSecond)
      && snake.width == itemWidth
      && WellFormed(snake.parts, columns, rows)
    }

    /** A snake as `Snake::new` leaves it at the centre, apart from its heading. */
    ghost predicate SnakeAtStart()
      reads this, snake
    {
      snake.parts == [Centre(columns, rows)] && !snake.justAte && snake.accumulatedDelta == -1
    }

    /**
     * What looking for food eaten leaves, against the food and score it started from: an item
     * on the head is eaten (score up by one, the snake to grow, the item removed and a
     * replacement placed from the first free draw); with none there, nothing changes.
     */
    ghost predicate LookedForFood(food0: seq<Food>, score0: int, samples: seq<Pos>, stalled: bool, used: nat)
      reads this, snake
    {
      && |snake.parts| >= 1
      && (FoodAt(food0, snake.parts[0]) ==>
            && score == score0 + 1 && snake.justAte
            && PlacementChose(samples, used, !stalled, food0, snake.parts)
            && EatenFrom(food0, food, snake.parts[0], if stalled then [] else [Food(samples[used - 1], itemWidth)]))
      && (!FoodAt(food0, snake.parts[0]) ==>
            && !stalled && used == 0 && food == food0 && score == score0 && !snake.justAte)
    }

    ghost predicate Valid()
      reads this, snake, gameOverYield, highscorer
    {
      && Settled()
      && SnakeSettled()
      && FoodPlaced(food, snake.parts, columns, rows, itemWidth)
      // Each food eaten adds one to the score and, one step later, one part to the body.
      && (state != GameState.GameOver ==> score + 1 == |snake.parts| + (if snake.justAte then 1 else 0))
      // Outside play the snake is the fresh one `reset_game` or `Game::new` made.
      && (state != Playing ==> SnakeAtStart())
    }

    /** `Game::new`: waiting to begin, a fresh snake at the centre, no food, score 0. */
    constructor (columns: int, rows: int, itemWidth: real, updatesPerSecond: nat)
      requires GridDimensions(columns, rows)
      requires updatesPerSecond > 0
      ensures Valid()
      ensures fresh(snake) && fresh(gameOverYield) && fresh(highscorer)
      ensures this.columns == columns && this.rows == rows
      ensures this.itemWidth == itemWidth && this.updatesPerSecond == updatesPerSecond
      ensures state == ToBegin && food == [] && score == 0
      ensures snake.parts == [Centre(columns, rows)] && snake.direction == Right
      ensures gameOverYield.elapsedTime == None && highscorer.cachedHighscore == None
    {
      snake := new Snake(Centre(columns, rows), itemWidth, StepInterval(updatesPerSecond));
      food := [];
      score := 0;
      state := ToBegin;
      gameOverYield := new Yield(GameOverDelay);
      highscorer := new HighscoreService.Start();
      this.columns := columns;
      this.rows := rows;
      this.itemWidth := itemWidth;
      this.updatesPerSecond := updatesPerSecond;
    }

    /**
     * `add_new_food`, drawing candidate cells from `samples` in order: the first cell that
     * no food item and no part occupies becomes a new item at the end of the list. When no
     * draw is free, nothing is added (the program would go on drawing).
     */
    method AddNewFood(samples: seq<Pos>) returns (placed: bool, used: nat)
      requires SamplesInGrid(samples, columns, rows)
      requires FoodPlaced(food, snake.parts, columns, rows, itemWidth)
      modifies this`food
      ensures PlacementChose(samples, used, placed, old(food), snake.parts)
      ensures placed ==> food == old(food) + [Food(samples[used - 1], itemWidth)]
      ensures !placed ==> food == old(food)
      ensures FoodPlaced(food, snake.parts, columns, rows, itemWidth)
    {
      used := 0;
      while used < |samples|
        invariant used <= |samples|
        invariant food == old(food)
        invariant forall k :: 0 <= k < used ==> !Free(samples[k], food, snake.parts)
      {
        var newX, newY := samples[used].x, samples[used].y;
        used := used + 1;

        var collidesWithFood := Any(food, (item: Food) => item.WouldCollide(newX, newY));

        if !collidesWithFood && !snake.WouldCollide(newX, newY) {
          var newFood := NewFood(newX, newY, itemWidth);
          food := food + [newFood];
          return true, used;
        }
      }
      return false, used;
    }

    /**
     * `reset_game`: the game is over, a fresh snake starts at the centre heading right, and
     * the food is cleared and one item placed; the score is kept for display.
     */
    method ResetGame(samples: seq<Pos>) returns (stalled: bool, used: nat)
      requires Settled()
      requires SamplesInGrid(samples, columns, rows)
      modifies this
      ensures Valid()
      ensures state == GameState.GameOver && score == old(score)
      ensures fresh(snake) && snake.parts == [Centre(columns, rows)] && snake.direction == Right
      ensures PlacementChose(samples, used, !stalled, [], [Centre(columns, rows)])
      ensures stalled ==> forall k :: 0 <= k < |samples| ==> samples[k] == Centre(columns, rows)
      ensures !stalled ==> food == [Food(samples[used - 1], itemWidth)]
      ensures stalled ==> food == []
    {
      state := GameState.GameOver;

      snake := new Snake(Centre(columns, rows), itemWidth, StepInterval(updatesPerSecond));

      food := [];
      var placed;
      placed, used := AddNewFood(samples);
      stalled := !placed;
    }

    /**
     * `look_for_food_eaten`, right after a step that moved: the first item the snake
     * occupies (only the new head can be on one) is eaten: the snake will grow on its next
     * step, the item is removed, a replacement is placed and the score goes up by one. At
     * most one item is eaten.
     */
    method LookForFoodEaten(samples: seq<Pos>) returns (stalled: bool, used: nat)
      requires Settled() && SnakeSettled()
      requires state == Playing
      requires !snake.justAte && score + 1 == |snake.parts|
      requires FoodPlaced(food, snake.parts[1..], columns, rows, itemWidth)
      requires SamplesInGrid(samples, columns, rows)
      modifies this`food, this`score, snake`justAte
      ensures Valid()
      ensures used <= |samples|
      ensures LookedForFood(old(food), old(score), samples, stalled, used)
    {
      stalled, used := false, 0;
      ghost var eaten: Option<nat> := None;
      ghost var parts := snake.parts;
      var foodIndex := 0;
      var count := |food|;
      while foodIndex < count
        invariant foodIndex <= count == |food|
        invariant food == old(food) && score == old(score) && !snake.justAte
        invariant forall j :: 0 <= j < foodIndex ==> food[j].position != parts[0]
        invariant eaten == None
      {
        var item := food[foodIndex];

        if snake.WouldCollide(item.position.x, item.position.y) {
          assert item.position == parts[0] by {
            assert item.position !in parts[1..];
            assert parts == [parts[0]] + parts[1..];
          }
          snake.justAte := true;

          var before := food;
          food := food[..foodIndex] + food[foodIndex + 1..];
          RemovedStillPlaced(before, foodIndex, parts, columns, rows, itemWidth);
          EatenCellIsNoLongerFree(before, foodIndex, parts);

          var placed;
          placed, used := AddNewFood(samples);
          stalled := !placed;
          assert FoodAt(before, parts[0]);
          assert EatenFrom(before, food, parts[0], if stalled then [] else [Food(samples[used - 1], itemWidth)]);

          DistinctCellsFit(parts, columns, rows);
          score := score + 1;

          eaten := Some(foodIndex);
          break;
        }
        foodIndex := foodIndex + 1;
      }
      if eaten.None? {
        NothingOnHeadStillPlaced(food, parts, columns, rows, itemWidth);
        assert !FoodAt(food, parts[0]);
      }
    }

    /** One pass of the `update` loop, with the frame's time, the random draws and the highscore file as parameters. */
    method Tick(delta: nat, samples: seq<Pos>, file: HighscoreFile, fault: WriteFault)
      returns (outcome: TickOutcome, used: nat, written: HighscoreFile)
      requires Valid()
      requires SamplesInGrid(samples, columns, rows)
      modifies this, snake, gameOverYield, highscorer
      ensures used <= |samples|
      ensures snake == old(snake) || fresh(snake)
      ensures !outcome.Crashed? ==> Valid()
      ensures old(|food|) == 1 && !outcome.Stalled? && !outcome.Crashed? ==> |food| == 1
      // Waiting to begin: the pass returns and nothing changes.
      ensures old(state) == ToBegin ==>
        && outcome == Returned && used == 0 && written == file
        && state == ToBegin && score == old(score) && food == old(food)
        && snake == old(snake) && unchanged(snake, gameOverYield, highscorer)
      // Game over: the delay runs; once it completes, the game waits to begin again, the
      // score is registered and then cleared.
      ensures old(state) == GameState.GameOver ==>
        && used == 0 && food == old(food)
        && snake == old(snake) && unchanged(snake)
        && var y := YieldAfter(old(gameOverYield.elapsedTime), GameOverDelay, delta);
        && gameOverYield.elapsedTime == y.elapsed
        && (!y.completed ==>
              && outcome == Returned && written == file
              && state == GameState.GameOver && score == old(score) && unchanged(highscorer))
        && (y.completed ==>
              && state == ToBegin
              && var r := Register(old(highscorer.cachedHighscore), old(score), file, fault);
              && highscorer.cachedHighscore == r.cache && written == r.file
              && (r.outcome == Registered ==> outcome == Returned && score == 0)
              && (r.outcome != Registered ==> outcome.Crashed? && score == old(score)))
      // Playing, throttled: only the snake's accumulator moves.
      ensures old(state) == Playing && old(snake.Throttled()) ==>
        && outcome == Continued && used == 0 && written == file
        && state == Playing && score == old(score) && food == old(food)
        && snake == old(snake) && snake.parts == old(snake.parts)
        && snake.direction == old(snake.direction) && snake.justAte == old(snake.justAte)
        && snake.accumulatedDelta == old(snake.accumulatedDelta) + delta
        && unchanged(gameOverYield, highscorer)
      // Playing, stepping into a wall or itself: the game is over and reset.
      ensures old(state) == Playing && !old(snake.Throttled())
                && Step(old(snake.parts), old(snake.direction), old(snake.justAte), columns, rows).result == MoveSnakeResult.GameOver ==>
        && state == GameState.GameOver && score == old(score) && written == file
        && fresh(snake) && snake.parts == [Centre(columns, rows)] && snake.direction == Right
        && (outcome == Continued || outcome == Stalled)
        && PlacementChose(samples, used, outcome == Continued, [], [Centre(columns, rows)])
        && (outcome == Continued ==> food == [Food(samples[used - 1], itemWidth)])
        && (outcome == Stalled ==> food == [])
        && unchanged(gameOverYield, highscorer)
      // Playing, moving: the body takes the step; food under the new head is eaten.
      ensures old(state) == Playing && !old(snake.Throttled())
                && Step(old(snake.parts), old(snake.direction), old(snake.justAte), columns, rows).result == Moved ==>
        && state == Playing && written == file
        && snake == old(snake)
        && snake.parts == Step(old(snake.parts), old(snake.direction), old(snake.justAte), columns, rows).parts
        && snake.direction == old(snake.direction) && snake.accumulatedDelta == 0
        && (outcome == Continued || outcome == Stalled)
        && LookedForFood(old(food), old(score), samples, outcome == Stalled, used)
        && unchanged(gameOverYield, highscorer)
    {
      used, written := 0, file;

      if state == ToBegin {
        return Returned, used, written;
      } else if state == GameState.GameOver {
        outcome, written := AwaitRestart(delta, file, fault);
        return outcome, used, written;
      }

      var stalled;
      stalled, used := Play(delta, samples);
      outcome := if stalled then Stalled else Continued;
    }

    /** The `GameOver` branch of a pass: the delay runs; once it completes, the game waits to begin, and the score is registered, its `unwrap` panicking on an error, and then cleared. */
    method AwaitRestart(delta: nat, file: HighscoreFile, fault: WriteFault) returns (outcome: TickOutcome, written: HighscoreFile)
      requires Valid() && state == GameState.GameOver
      modifies this`state, this`score, gameOverYield, highscorer
      ensures !outcome.Crashed? ==> Valid()
      ensures outcome == Returned || outcome.Crashed?
      ensures
        && var y := YieldAfter(old(gameOverYield.elapsedTime), GameOverDelay, delta);
        && gameOverYield.elapsedTime == y.elapsed
        && (!y.completed ==>
              && outcome == Returned && written == file
              && state == GameState.GameOver && score == old(score) && unchanged(highscorer))
        && (y.completed ==>
              && state == ToBegin
              && var r := Register(old(highscorer.cachedHighscore), old(score), file, fault);
              && highscorer.cachedHighscore == r.cache && written == r.file
              && (r.outcome == Registered ==> outcome == Returned && score == 0)
              && (r.outcome != Registered ==> outcome.Crashed? && score == old(score)))
    {
      written := file;
      var completed := gameOverYield.CompletedYield(delta);
      if completed {
        state := ToBegin;

        var registration;
        registration, written := highscorer.RegisterScore(score, file, fault);
        if registration != Registered {
          // `unwrap` on the result panics.
          var cause := if registration.Failed? then registration.error else registration.cause;
          return Crashed(cause), written;
        }
        score := 0;
      }
      return Returned, written;
    }

    /** The `Playing` branch of a pass: the snake moves if its interval is up, then the game is reset on a collision or looks for food eaten. */
    method Play(delta: nat, samples: seq<Pos>) returns (stalled: bool, used: nat)
      requires Valid() && state == Playing
      requires SamplesInGrid(samples, columns, rows)
      modifies this, snake
      ensures Valid()
      ensures used <= |samples|
      ensures snake == old(snake) || fresh(snake)
      ensures old(|food|) == 1 && !stalled ==> |food| == 1
      ensures old(snake.Throttled()) ==>
        && !stalled && used == 0
        && state == Playing && score == old(score) && food == old(food)
        && snake == old(snake) && snake.parts == old(snake.parts)
        && snake.direction == old(snake.direction) && snake.justAte == old(snake.justAte)
        && snake.accumulatedDelta == old(snake.accumulatedDelta) + delta
      ensures !old(snake.Throttled())
                && Step(old(snake.parts), old(snake.direction), old(snake.justAte), columns, rows).result == MoveSnakeResult.GameOver ==>
        && state == GameState.GameOver && score == old(score)
        && fresh(snake) && snake.parts == [Centre(columns, rows)] && snake.direction == Right
        && PlacementChose(samples, used, !stalled, [], [Centre(columns, rows)])
        && (!stalled ==> food == [Food(samples[used - 1], itemWidth)])
        && (stalled ==> food == [])
      ensures !old(snake.Throttled())
                && Step(old(snake.parts), old(snake.direction), old(snake.justAte), columns, rows).result == Moved ==>
        && state == Playing
        && snake == old(snake)
        && snake.parts == Step(old(snake.parts), old(snake.direction), old(snake.justAte), columns, rows).parts
        && snake.direction == old(snake.direction) && snake.accumulatedDelta == 0
        && LookedForFood(old(food), old(score), samples, stalled, used)
    {
      used := 0;
      ghost var before := snake.parts;
      var moveResult := snake.MoveSnake(delta, columns, rows);

      stalled := false;
      match moveResult {
        case GameOver =>
          stalled, used := ResetGame(samples);
          assert PlacementChose(samples, used, !stalled, [], [Centre(columns, rows)]);
        case Moved =>
          StepPreservesWellFormed(before, old(snake.direction), old(snake.justAte), columns, rows);
          MovedFoodOnlyOnHead(before, snake.parts, old(snake.justAte), food, columns, rows, itemWidth);
          stalled, used := LookForFoodEaten(samples);
        case DidNotMove =>
          assert FoodPlaced(food, snake.parts, columns, rows, itemWidth);
          assert SnakeSettled();
      }
    }

    /**
     * `update`: one pass per tick the frame's timer releases (`ticks` of them), stopping
     * early where the loop body returns, where food placement runs out of draws, or on a
     * panic. Later passes draw from what earlier ones left of `samples`.
     */
    method Update(ticks: nat, delta: nat, samples: seq<Pos>, file: HighscoreFile, fault: WriteFault)
      returns (outcome: TickOutcome, written: HighscoreFile)
      requires Valid()
      requires SamplesInGrid(samples, columns, rows)
      modifies this, snake, gameOverYield, highscorer
      ensures !outcome.Crashed? ==> Valid()
      ensures old(|food|) == 1 && !outcome.Stalled? && !outcome.Crashed? ==> |food| == 1
      ensures old(state) == ToBegin ==>
        && state == ToBegin && score == old(score) && food == old(food) && written == file
        && snake == old(snake) && unchanged(snake, gameOverYield, highscorer)
      ensures old(state) == Playing && state == Playing ==> score >= old(score)
    {
      outcome, written := Continued, file;
      var remaining := samples;
      var i := 0;
      while i < ticks
        invariant i <= ticks
        invariant Valid()
        invariant SamplesInGrid(remaining, columns, rows)
        invariant snake == old(snake) || fresh(snake)
        invariant outcome == Continued && written == file
        invariant old(|food|) == 1 ==> |food| == 1
        invariant old(state) == ToBegin ==> i == 0 && state == ToBegin && food == old(food) && score == old(score)
        invariant old(state) == ToBegin ==> snake == old(snake) && unchanged(snake, gameOverYield, highscorer)
        invariant old(state) == Playing && state == Playing ==> score >= old(score)
        invariant old(state) == Playing && state != Playing ==> state == GameState.GameOver
      {
        var used;
        outcome, used, written := Tick(delta, remaining, written, fault);
        if outcome != Continued {
          return;
        }
        remaining := remaining[used..];
        i := i + 1;
      }
    }

    /**
     * `key_down_event`: waiting to begin, only Space counts and starts play; in any other
     * state (game over included) a direction key steers the snake under the no-reversal rule.
     */
    method KeyDown(key: Key)
      requires Valid()
      modifies this`state, snake`direction
      ensures Valid()
      ensures old(state) == ToBegin ==>
        && state == (if key == Space then Playing else ToBegin)
        && snake.direction == old(snake.direction)
      ensures old(state) != ToBegin ==>
        && state == old(state)
        && snake.direction == Steer(old(snake.direction), key, |snake.parts|)
    {
      if state == ToBegin {
        if key == Space {
          state := Playing;
        }
        return;
      }

      var newDirection := KeyDirection(key);

      if newDirection.Some? {
        var unwrappedDirection := newDirection.value;
        var directionDenied := Opposite(snake.direction);

        if |snake.parts| < 2 || unwrappedDirection != directionDenied {
          snake.direction := unwrappedDirection;
        }
      }
    }
  }

  /** Removing one item keeps the rest placed, and since items sit on distinct cells, none of the rest is on the removed item's cell. */
  lemma RemovedStillPlaced(food: seq<Food>, k: nat, parts: seq<Pos>, columns: int, rows: int, width: real)
    requires k < |food| && |parts| >= 1
    requires FoodPlaced(food, parts[1..], columns, rows, width)
    requires food[k].position == parts[0]
    ensures FoodPlaced(food[..k] + food[k + 1..], parts, columns, rows, width)
  {
    var rest := food[..k] + food[k + 1..];
    forall i | 0 <= i < |rest| ensures rest[i].position !in parts {
      var j := if i < k then i else i + 1;
      assert rest[i] == food[j];
      assert food[j].position != food[k].position;
      assert parts == [parts[0]] + parts[1..];
    }
    forall i, j | 0 <= i < j < |rest| ensures rest[i].position != rest[j].position {
      var i' := if i < k then i else i + 1;
      var j' := if j < k then j else j + 1;
      assert rest[i] == food[i'] && rest[j] == food[j'];
    }
  }

  /** A cell is free of the body and the other items exactly when it is free of the body and all items, the removed one being on the head. */
  lemma EatenCellIsNoLongerFree(food: seq<Food>, k: nat, parts: seq<Pos>)
    requires k < |food| && |parts| >= 1
    requires food[k].position == parts[0]
    ensures forall c :: Free(c, food[..k] + food[k + 1..], parts) <==> Free(c, food, parts)
  {
    var rest := food[..k] + food[k + 1..];
    forall c | Free(c, rest, parts) ensures Free(c, food, parts) {
      forall i | 0 <= i < |food| ensures food[i].position != c {
        if i < k {
          assert rest[i] == food[i];
        } else if i > k {
          assert rest[i - 1] == food[i];
        }
      }
    }
    forall c | Free(c, food, parts) ensures Free(c, rest, parts) {
      forall i | 0 <= i < |rest| ensures rest[i].position != c {
        assert rest[i] == food[if i < k then i else i + 1];
      }
    }
  }

  /** Items that are not on the head of the body and not on the rest of it are on none of it. */
  lemma NothingOnHeadStillPlaced(food: seq<Food>, parts: seq<Pos>, columns: int, rows: int, width: real)
    requires |parts| >= 1
    requires FoodPlaced(food, parts[1..], columns, rows, width)
    requires forall i :: 0 <= i < |food| ==> food[i].position != parts[0]
    ensures FoodPlaced(food, parts, columns, rows, width)
  {
    assert parts == [parts[0]] + parts[1..];
  }

  /** Food placed clear of the old body can only be on the new head after a step that moved. */
  lemma MovedFoodOnlyOnHead(before: seq<Pos>, after: seq<Pos>, justAte: bool, food: seq<Food>, columns: int, rows: int, width: real)
    requires |before| >= 1
    requires FoodPlaced(food, before, columns, rows, width)
    requires |after| >= 1 && after == [after[0]] + Kept(before, justAte)
    ensures FoodPlaced(food, after[1..], columns, rows, width)
  {
    assert after[1..] == Kept(before, justAte);
    assert forall p :: p in Kept(before, justAte) ==> p in before;
  }

  /** A draw of the random generator as `add_new_food` makes it: real coordinates in [0, columns) and [0, rows), not necessarily whole. */
  datatype Draw = Draw(x: real, y: real)

  /** The occupancy test of `add_new_food` as written: the unrounded draw against every item and every part. */
  predicate DrawOccupied(d: Draw, food: seq<Food>, parts: seq<Pos>) {
    || (exists i :: 0 <= i < |food| && food[i].position.x as real == d.x && food[i].position.y as real == d.y)
    || (exists i :: 0 <= i < |parts| && parts[i].x as real == d.x && parts[i].y as real == d.y)
  }

  /** `add_new_food` as written: the first draw that passes the test is stored rounded down. */
  function PlaceAsWritten(draws: seq<Draw>, food: seq<Food>, parts: seq<Pos>, width: real): (r: Option<Food>)
    ensures r.Some? ==>
      exists k :: 0 <= k < |draws| && !DrawOccupied(draws[k], food, parts)
        && (forall j :: 0 <= j < k ==> DrawOccupied(draws[j], food, parts))
        && r.value == Food(Pos(draws[k].x.Floor, draws[k].y.Floor), width)
    ensures r.None? ==> forall k :: 0 <= k < |draws| ==> DrawOccupied(draws[k], food, parts)
  {
    if draws == [] then None
    else if !DrawOccupied(draws[0], food, parts) then
      Some(Food(Pos(draws[0].x.Floor, draws[0].y.Floor), width))
    else
      var r := PlaceAsWritten(draws[1..], food, parts, width);
      assert forall k :: 1 <= k < |draws| ==> draws[k] == draws[1..][k - 1];
      r
  }

  /** A draw with a fractional part never equals a whole cell, so it passes the test, and rounding it down can land on the snake. */
  lemma FoodOnSnakeAsWritten()
    ensures
      var parts := [Pos(3, 4)];
      var placed := PlaceAsWritten([Draw(3.5, 4.25)], [], parts, 20.0);
      placed.Some? && placed.value.position in parts
  {
    assert !DrawOccupied(Draw(3.5, 4.25), [], [Pos(3, 4)]);
    assert (3.5).Floor == 3 && (4.25).Floor == 4;
  }

  /** A game on a 20 by 20 grid at five updates a second, play begun, one item three cells right of the start. */
  method Begin() returns (g: Game)
    ensures fresh(g) && fresh(g.snake)
    ensures g.Valid() && g.state == Playing && g.columns == 20 && g.rows == 20
    ensures g.snake.parts == [Pos(10, 10)] && g.snake.direction == Right && g.snake.Throttled() == false
    ensures g.snake.updateAfterDelta == 200 && g.score == 0
    ensures g.food == [Food(Pos(13, 10), 20.0)]
  {
    g := new Game(20, 20, 20.0, 5);
    var samples := [Pos(13, 10)];
    assert Free(samples[0], g.food, g.snake.parts);
    var placed, used := g.AddNewFood(samples);
    assert placed;
    g.KeyDown(Space);
  }

  /**
   * The first pass steps at once. After that a pass adds its time to the snake's count while
   * the count is under the 200 ms interval, and the pass that finds it reached steps and sets
   * it back to zero without adding its own time; so with 200 ms passes the snake steps on
   * every other pass. Three passes leave it on the cell left of the food, one part long.
   */
  method ApproachFood() returns (g: Game)
    ensures fresh(g) && fresh(g.snake)
    ensures g.Valid() && g.state == Playing && g.columns == 20 && g.rows == 20
    ensures g.snake.parts == [Pos(12, 10)] && g.snake.direction == Right && !g.snake.justAte
    ensures g.snake.updateAfterDelta == 200 && g.snake.accumulatedDelta == 0 && g.score == 0
    ensures g.food == [Food(Pos(13, 10), 20.0)]
  {
    g := Begin();
    var stalled, used := g.Play(0, []);
    assert g.snake.parts == [Pos(11, 10)];
    stalled, used := g.Play(200, []);
    stalled, used := g.Play(200, []);
  }

  /**
   * Two more passes: the head reaches the food, the score becomes one, the snake is set to
   * grow, and the eaten item is replaced by one on the first free draw.
   */
  method EatFood() returns (g: Game)
    ensures fresh(g) && fresh(g.snake)
    ensures g.Valid() && g.state == Playing && g.columns == 20 && g.rows == 20
    ensures g.snake.parts == [Pos(13, 10)] && g.snake.direction == Right && g.snake.justAte
    ensures g.snake.updateAfterDelta == 200 && g.snake.accumulatedDelta == 0 && g.score == 1
    ensures g.food == [Food(Pos(0, 0), 20.0)]
  {
    g := ApproachFood();
    var stalled, used := g.Play(200, []);
    var before := g.food;
    var samples := [Pos(0, 0)];
    stalled, used := g.Play(200, samples);
    assert before[0].position == g.snake.parts[0];
    assert Free(samples[0], before, g.snake.parts);
    assert !stalled && used == 1;
    assert before[..0] + before[1..] == [];
  }

  /** The step after eating keeps the tail: the snake is two parts long, head first. */
  method GrowAfterEating() returns (score: nat, parts: seq<Pos>)
    ensures score == 1 && parts == [Pos(14, 10), Pos(13, 10)]
  {
    var g := EatFood();
    var stalled, used := g.Play(200, [Pos(0, 0)]);
    stalled, used := g.Play(200, [Pos(0, 0)]);
    return g.score, g.snake.parts;
  }
}

=== FILE: geometry.dfy ===
/** Grid cells, directions and the small sequence facts the snake and the session share. */
module Geometry {

  /** `GamePos`: a cell of the grid. The source stores whole numbers in `f32`s; here they are integers. */
  datatype Pos = Pos(x: int, y: int)

  datatype Direction = Left | Right | Up | Down

  /** Two cells that share an edge. */
  predicate Adjacent(p: Pos, q: Pos) {
    || (p.x == q.x && (p.y - q.y == 1 || q.y - p.y == 1))
    || (p.y == q.y && (p.x - q.x == 1 || q.x - p.x == 1))
  }

  /** The cell one step from `p` in direction `d`: Left x-1, Right x+1, Up y-1, Down y+1. */
  function Advance(p: Pos, d: Direction): (q: Pos)
    ensures Adjacent(p, q)
    ensures d == Left ==> q.x < p.x
    ensures d == Right ==> q.x > p.x
    ensures d == Up ==> q.y < p.y
    ensures d == Down ==> q.y > p.y
  {
    match d
    case Left => Pos(p.x - 1, p.y)
    case Right => Pos(p.x + 1, p.y)
    case Up => Pos(p.x, p.y - 1)
    case Down => Pos(p.x, p.y + 1)
  }

  /** The direction a turn may not take while the body has two or more parts. */
  function Opposite(d: Direction): (o: Direction)
    ensures o != d
    ensures forall p :: Advance(Advance(p, d), o) == p
  {
    match d
    case Right => Left
    case Left => Right
    case Up => Down
    case Down => Up
  }

  lemma OppositeInvolutive(d: Direction)
    ensures Opposite(Opposite(d)) == d
  {
  }

  /** A cell inside a grid of `columns` x `rows`, written as the snake's bounds check writes it. */
  predicate InBounds(p: Pos, columns: int, rows: int) {
    !(p.x < 0 || p.y < 0) && !(p.x > columns - 1 || p.y > rows - 1)
  }

  /** `iter().any(f)`: some element satisfies `f`. */
  function Any<T>(s: seq<T>, f: T -> bool): (r: bool)
    ensures r <==> exists i :: 0 <= i < |s| && f(s[i])
  {
    if s == [] then false
    else f(s[0]) || Any(s[1..], f)
  }

  /** No cell occurs twice. */
  ghost predicate Distinct(s: seq<Pos>) {
    forall i, j :: 0 <= i < j < |s| ==> s[i] != s[j]
  }

  /** Row-major number of an in-bounds cell. */
  function CellIndex(p: Pos, columns: int): int {
    p.y * columns + p.x
  }

  lemma CellIndexRange(p: Pos, columns: int, rows: int)
    requires InBounds(p, columns, rows)
    ensures 0 <= CellIndex(p, columns) < columns * rows
  {
    assert p.y * columns <= (rows - 1) * columns;
  }

  lemma CellIndexInjective(p: Pos, q: Pos, columns: int, rows: int)
    requires InBounds(p, columns, rows) && InBounds(q, columns, rows)
    ensures p != q ==> CellIndex(p, columns) != CellIndex(q, columns)
  {
    if p.y < q.y {
      RowsApart(p, q, columns);
    } else if q.y < p.y {
      RowsApart(q, p, columns);
    }
  }

  lemma RowsApart(p: Pos, q: Pos, columns: int)
    requires 0 <= p.x < columns && 0 <= q.x < columns
    requires p.y < q.y
    ensures CellIndex(p, columns) < CellIndex(q, columns)
  {
    var d := q.y - p.y;
    MulDistributes(p.y, d, columns);
    MulAtLeast(d, columns);
  }

  lemma MulDistributes(a: int, b: int, c: int)
    ensures (a + b) * c == a * c + b * c
  {
  }

  lemma MulAtLeast(d: int, c: int)
    requires d >= 1 && c >= 0
    ensures d * c >= c
  {
  }

  /** The set of cell numbers of a sequence of cells. */
  ghost function Indices(s: seq<Pos>, columns: int): set<int> {
    set i | 0 <= i < |s| :: CellIndex(s[i], columns)
  }

  lemma {:induction false} IndicesCard(s: seq<Pos>, columns: int, rows: int)
    requires Distinct(s)
    requires forall i :: 0 <= i < |s| ==> InBounds(s[i], columns, rows)
    ensures |Indices(s, columns)| == |s|
  {
    if s != [] {
      var rest := s[1..];
      IndicesCard(rest, columns, rows);
      assert Indices(s, columns) == {CellIndex(s[0], columns)} + Indices(rest, columns) by {
        forall k | k in Indices(s, columns)
          ensures k in {CellIndex(s[0], columns)} + Indices(rest, columns)
        {
          var i :| 0 <= i < |s| && k == CellIndex(s[i], columns);
          if i > 0 { assert k == CellIndex(rest[i - 1], columns); }
        }
      }
      forall i | 0 <= i < |rest|
        ensures CellIndex(rest[i], columns) != CellIndex(s[0], columns)
      {
        assert rest[i] == s[i + 1];
        CellIndexInjective(rest[i], s[0], columns, rows);
      }
    }
  }

  /** The numbers 0 .. n-1. */
  ghost function Below(n: nat): (r: set<int>)
    ensures forall k :: k in r <==> 0 <= k < n
    ensures |r| == n
  {
    if n == 0 then {} else Below(n - 1) + {n - 1}
  }

  /** Pigeonhole: distinct in-bounds cells are no more numerous than the grid's cells. */
  lemma DistinctCellsFit(s: seq<Pos>, columns: int, rows: int)
    requires columns > 0 && rows > 0
    requires Distinct(s)
    requires forall i :: 0 <= i < |s| ==> InBounds(s[i], columns, rows)
    ensures |s| <= columns * rows
  {
    IndicesCard(s, columns, rows);
    forall k | k in Indices(s, columns) ensures k in Below(columns * rows) {
      var i :| 0 <= i < |s| && k == CellIndex(s[i], columns);
      CellIndexRange(s[i], columns, rows);
    }
    SubsetCard(Indices(s, columns), Below(columns * rows));
  }

  lemma SubsetCard<T>(a: set<T>, b: set<T>)
    requires a <= b
    ensures |a| <= |b|
  {
    assert b == a + (b - a);
  }
}

=== FILE: highscore.dfy ===
/**
 * The highscore store: one unsigned 32-bit number kept as decimal text in a file, cached
 * in memory. The file is a value passed in and handed back; what a write does to it is
 * given by `WriteFault`, chosen by the caller.
 */
module Highscores {
  import opened Options

  /** Numbers of type `u32` are those below 2^32. */
  const U32Limit: nat := 0x1_0000_0000

  /** The file as a read sees it: missing, readable text, or failing for another reason. */
  datatype HighscoreFile = Absent | Text(contents: string) | IoFail

  /** How opening and writing the file go: both succeed, the open fails, or the write fails. */
  datatype WriteFault = NoFault | OpenFails | WriteFails

  /** The two error strings the service returns: "IO Error" and "Parsing failed". */
  datatype HighscoreError = IoError | ParsingFailed

  predicate IsDigit(c: char) {
    '0' <= c <= '9'
  }

  predicate AllDigits(s: string) {
    forall i :: 0 <= i < |s| ==> IsDigit(s[i])
  }

  function DigitValue(c: char): (v: nat)
    requires IsDigit(c)
    ensures v < 10
  {
    (c as int) - ('0' as int)
  }

  function DigitChar(n: nat): (c: char)
    requires n < 10
    ensures IsDigit(c) && DigitValue(c) == n
  {
    (('0' as int) + n) as char
  }

  /** `u32::to_string`: decimal digits with no sign and no leading zero. */
  function Decimal(n: nat): (s: string)
    ensures |s| >= 1 && AllDigits(s)
    ensures s[0] == '0' ==> n == 0
    decreases n
  {
    if n < 10 then [DigitChar(n)] else Decimal(n / 10) + [DigitChar(n % 10)]
  }

  /** The number a string of digits spells, most significant digit first. */
  function DigitsValue(s: string): nat
    requires AllDigits(s)
    decreases |s|
  {
    if s == [] then 0 else 10 * DigitsValue(s[..|s| - 1]) + DigitValue(s[|s| - 1])
  }

  /**
   * `str::parse::<u32>`: an optional leading '+', then one or more decimal digits (leading
   * zeros allowed) whose value is below 2^32; anything else, whitespace included, fails.
   */
  function ParseU32(s: string): (r: Option<nat>)
    ensures r.Some? ==> r.value < U32Limit
  {
    var digits := if |s| > 0 && s[0] == '+' then s[1..] else s;
    if digits == [] || !AllDigits(digits) then None
    else if DigitsValue(digits) < U32Limit then Some(DigitsValue(digits))
    else None
  }

  lemma {:induction false} DecimalValue(n: nat)
    ensures DigitsValue(Decimal(n)) == n
    decreases n
  {
    if n >= 10 {
      DecimalValue(n / 10);
      var s := Decimal(n);
      assert s[..|s| - 1] == Decimal(n / 10);
    }
  }

  /** Printing then parsing gives the number back. */
  lemma ParseDecimal(n: nat)
    requires n < U32Limit
    ensures ParseU32(Decimal(n)) == Some(n)
  {
    DecimalValue(n);
  }

  /** A larger number never prints shorter. */
  lemma {:induction false} DecimalLengthMonotone(a: nat, b: nat)
    requires a <= b
    ensures |Decimal(a)| <= |Decimal(b)|
    decreases b
  {
    if a >= 10 {
      DecimalLengthMonotone(a / 10, b / 10);
    }
  }

  /**
   * A `write` at offset 0 of a file opened without truncation: the data replaces the leading
   * characters and any longer old text survives after it.
   */
  function WriteAtStart(prior: string, data: string): (r: string)
    ensures |r| >= |data| && |r| >= |prior| && (|r| == |data| || |r| == |prior|)
    ensures r[..|data|] == data
    ensures forall i :: |data| <= i < |prior| ==> r[i] == prior[i]
  {
    if |prior| > |data| then data + prior[|data|..] else data
  }

  /** Overwriting the decimal text of a number with that of a number at least as large leaves exactly the new text. */
  lemma CanonicalOverwrite(previous: nat, score: nat)
    requires previous <= score
    ensures WriteAtStart(Decimal(previous), Decimal(score)) == Decimal(score)
  {
    DecimalLengthMonotone(previous, score);
  }

  /** A prior text with leading zeros is not fully overwritten: "0007" (which parses as 7) becomes "1007" when 10 is written. */
  lemma StaleTailExample()
    ensures ParseU32("0007") == Some(7)
    ensures Decimal(10) == "10"
    ensures WriteAtStart("0007", Decimal(10)) == "1007"
    ensures ParseU32("1007") == Some(1007)
  {
    assert Decimal(1) == "1";
    assert "0007"[..3] == "000" && "000"[..2] == "00" && "00"[..1] == "0" && "0"[..0] == "";
    assert DigitsValue("0007") == 7;
    assert "1007"[..3] == "100" && "100"[..2] == "10" && "10"[..1] == "1" && "1"[..0] == "";
    assert DigitsValue("1007") == 1007;
  }

  /** Opening with `create(true)` makes a missing file an empty one. */
  function Opened(file: HighscoreFile): (r: HighscoreFile)
    ensures !r.Absent?
    ensures file.Absent? ==> r == Text("")
    ensures !file.Absent? ==> r == file
  {
    if file.Absent? then Text("") else file
  }

  /** The file after writing `data` at its start; a file that cannot be read stays so. */
  function Written(file: HighscoreFile, data: string): (r: HighscoreFile)
    ensures r.Text? <==> file.Text?
    ensures file.Text? ==> |r.contents| >= |data| && |r.contents| >= |file.contents| && r.contents[..|data|] == data
    ensures !file.Text? ==> r == file
  {
    match file
    case Text(contents) => Text(WriteAtStart(contents, data))
    case _ => file
  }

  datatype Lookup = Lookup(result: Result<nat, HighscoreError>, cache: Option<nat>)

  /**
   * `get_highscore`: the cached value when there is one; otherwise the file is read. A
   * missing file counts as 0 and caches it; a readable file gives its parse (not cached);
   * any other failure is an error.
   */
  function ReadThrough(cache: Option<nat>, file: HighscoreFile): (r: Lookup)
    ensures r.cache.Some? ==> r.result == Success(r.cache.value)
    ensures r.cache != cache ==> cache == None && file == Absent && r.cache == Some(0)
    ensures r.result.Failure? ==> cache == None && (r.result.error == IoError <==> file == IoFail)
  {
    if cache.Some? then Lookup(Success(cache.value), cache)
    else
      match file
      case Text(contents) =>
        var parsed := ParseU32(contents);
        Lookup(if parsed.Some? then Success(parsed.value) else Failure(ParsingFailed), cache)
      case Absent => Lookup(Success(0), Some(0))
      case IoFail => Lookup(Failure(IoError), cache)
  }

  /** The answer of `is_new_highscore`, or the panic of its `unwrap` on a failed read. */
  datatype Verdict = Answer(isNew: bool) | Panic(cause: HighscoreError)

  datatype Check = Check(verdict: Verdict, cache: Option<nat>)

  /** `is_new_highscore`: the current highscore is looked up and compared strictly with `score`. */
  function CheckNew(cache: Option<nat>, score: nat, file: HighscoreFile): (r: Check)
    ensures r.cache == ReadThrough(cache, file).cache
    ensures r.verdict.Panic? <==> ReadThrough(cache, file).result.Failure?
    ensures r.verdict.Panic? ==> r.verdict.cause == ReadThrough(cache, file).result.error
  {
    var looked := ReadThrough(cache, file);
    match looked.result
    case Failure(e) => Check(Panic(e), looked.cache)
    case Success(current) => Check(Answer(cache.GetOr(current) < score), looked.cache)
  }

  /** What `register_score` returns: `Ok(())`, `Err(..)`, or a panic inside `is_new_highscore`. */
  datatype Registration = Registered | Failed(error: HighscoreError) | Panicked(cause: HighscoreError)

  datatype RegisterEffect = RegisterEffect(outcome: Registration, cache: Option<nat>, file: HighscoreFile)

  /**
   * `register_score`: nothing is written unless `score` is a new highscore; then the file is
   * opened (created if missing), the decimal text is written at its start and the cache
   * takes the score. A failed open or write is an IO error that leaves the cache alone.
   */
  function Register(cache: Option<nat>, score: nat, file: HighscoreFile, fault: WriteFault): (r: RegisterEffect)
    ensures r.outcome.Panicked? <==> CheckNew(cache, score, file).verdict.Panic?
    ensures r.outcome.Failed? ==> r.outcome.error == IoError && fault != NoFault
    ensures r.cache != ReadThrough(cache, file).cache ==> r.outcome == Registered && r.cache == Some(score)
    ensures r.file != file ==> CheckNew(cache, score, file).verdict == Answer(true) && r.file.Text?
    ensures CheckNew(cache, score, file).verdict == Answer(true) && fault == NoFault ==>
      r.outcome == Registered && r.file == Written(Opened(file), Decimal(score))
  {
    var checked := CheckNew(cache, score, file);
    match checked.verdict
    case Panic(e) => RegisterEffect(Panicked(e), checked.cache, file)
    case Answer(isNew) =>
      if !isNew then RegisterEffect(Registered, checked.cache, file)
      else if fault == OpenFails then RegisterEffect(Failed(IoError), checked.cache, file)
      else if fault == WriteFails then RegisterEffect(Failed(IoError), checked.cache, Opened(file))
      else RegisterEffect(Registered, Some(score), Written(Opened(file), Decimal(score)))
  }

  /** A cached value is returned as it is, whatever the file holds, and the cache stays. */
  lemma CachedIgnoresFile(v: nat, file: HighscoreFile)
    ensures ReadThrough(Some(v), file) == Lookup(Success(v), Some(v))
  {
  }

  /**
   * With no cache: a missing file reads as 0 and caches 0; a failing file is an IO error
   * and a readable file gives its parse, and neither touches the cache.
   */
  lemma UncachedRead(file: HighscoreFile)
    ensures file.Absent? ==> ReadThrough(None, file) == Lookup(Success(0), Some(0))
    ensures file.IoFail? ==> ReadThrough(None, file) == Lookup(Failure(IoError), None)
    ensures file.Text? ==> ReadThrough(None, file).cache == None
    ensures file.Text? ==> (ReadThrough(None, file).result.Success? <==> ParseU32(file.contents).Some?)
    ensures file.Text? && ParseU32(file.contents).Some? ==> ReadThrough(None, file).result == Success(ParseU32(file.contents).value)
  {
  }

  /** A score is a new highscore exactly when the current highscore is strictly below it. */
  lemma NewHighscoreIsStrict(cache: Option<nat>, score: nat, file: HighscoreFile)
    requires ReadThrough(cache, file).result.Success?
    ensures CheckNew(cache, score, file).verdict == Answer(ReadThrough(cache, file).result.value < score)
  {
  }

  /** A score that is not a new highscore is accepted with nothing written and the cache as the lookup left it. */
  lemma NotNewWritesNothing(cache: Option<nat>, score: nat, file: HighscoreFile, fault: WriteFault)
    requires CheckNew(cache, score, file).verdict == Answer(false)
    ensures Register(cache, score, file, fault) == RegisterEffect(Registered, ReadThrough(cache, file).cache, file)
  {
  }

  /** After a new highscore is written, the next lookup returns it whatever the file then holds. */
  lemma RegisterThenGet(cache: Option<nat>, score: nat, file: HighscoreFile, fault: WriteFault, later: HighscoreFile)
    requires CheckNew(cache, score, file).verdict == Answer(true)
    requires Register(cache, score, file, fault).outcome == Registered
    ensures ReadThrough(Register(cache, score, file, fault).cache, later).result == Success(score)
  {
  }

  /** A failed open or write reports an IO error and leaves the cache as the lookup left it. */
  lemma FailedWriteKeepsCache(cache: Option<nat>, score: nat, file: HighscoreFile, fault: WriteFault)
    requires Register(cache, score, file, fault).outcome.Failed?
    ensures Register(cache, score, file, fault).outcome == Failed(IoError)
    ensures Register(cache, score, file, fault).cache == ReadThrough(cache, file).cache
  {
  }

  /**
   * When the file holds the decimal text of the current highscore and a larger score is
   * registered, the file ends up holding exactly the new score's text, and a later process
   * reading it afresh gets the new score.
   */
  lemma PersistedHighscore(cache: Option<nat>, previous: nat, score: nat)
    requires previous < score < U32Limit
    requires cache == None || cache == Some(previous)
    ensures Register(cache, score, Text(Decimal(previous)), NoFault)
      == RegisterEffect(Registered, Some(score), Text(Decimal(score)))
    ensures ReadThrough(None, Text(Decimal(score))).result == Success(score)
  {
    ParseDecimal(previous);
    CanonicalOverwrite(previous, score);
    ParseDecimal(score);
  }

  /**
   * The first highscore: with no file, a positive score is new, the file is created holding
   * exactly its text, and a later process reading it afresh gets the score.
   */
  lemma FirstHighscorePersisted(cache: Option<nat>, score: nat)
    requires cache == None || cache == Some(0)
    requires 0 < score < U32Limit
    ensures Register(cache, score, Absent, NoFault) == RegisterEffect(Registered, Some(score), Text(Decimal(score)))
    ensures ReadThrough(None, Text(Decimal(score))).result == Success(score)
  {
    ParseDecimal(score);
  }

  class HighscoreService {
    var cachedHighscore: Option<nat>

    ghost predicate Valid()
      reads this
    {
      cachedHighscore.Some? ==> cachedHighscore.value < U32Limit
    }

    /** `HighscoreService::start`: nothing cached. */
    constructor Start()
      ensures cachedHighscore == None && Valid()
    {
      cachedHighscore := None;
    }

    method GetHighscore(file: HighscoreFile) returns (r: Result<nat, HighscoreError>)
      requires Valid()
      modifies this
      ensures Valid()
      ensures Lookup(r, cachedHighscore) == ReadThrough(old(cachedHighscore), file)
    {
      if cachedHighscore.Some? {
        return Success(cachedHighscore.value);
      }

      match file
      case Text(contents) =>
        var parsed := ParseU32(contents);
        return if parsed.Some? then Success(parsed.value) else Failure(ParsingFailed);
      case Absent =>
        cachedHighscore := Some(0);
        return Success(0);
      case IoFail =>
        return Failure(IoError);
    }

    method IsNewHighscore(score: nat, file: HighscoreFile) returns (v: Verdict)
      requires Valid()
      modifies this
      ensures Valid()
      ensures Check(v, cachedHighscore) == CheckNew(old(cachedHighscore), score, file)
    {
      var cached := cachedHighscore;
      var looked := GetHighscore(file);
      if looked.Failure? {
        return Panic(looked.error);
      }
      var currentHighScore := cached.GetOr(looked.value);
      return Answer(currentHighScore < score);
    }

    method RegisterScore(score: nat, file: HighscoreFile, fault: WriteFault) returns (r: Registration, written: HighscoreFile)
      requires Valid()
      requires score < U32Limit
      modifies this
      ensures Valid()
      ensures RegisterEffect(r, cachedHighscore, written) == Register(old(cachedHighscore), score, file, fault)
    {
      var checked := IsNewHighscore(score, file);
      if checked.Panic? {
        return Panicked(checked.cause), file;
      }
      if !checked.isNew {
        return Registered, file;
      }

      if fault == OpenFails {
        return Failed(IoError), file;
      }
      written := Opened(file);

      if fault == WriteFails {
        return Failed(IoError), written;
      }
      written := Written(written, Decimal(score));

      cachedHighscore := Some(score);
      return Registered, written;
    }
  }

  /** With no file, the highscore reads 0; registering 5 makes it 5; registering 3 then leaves it 5. */
  method MissingFileScenario() returns (first: Result<nat, HighscoreError>, afterFive: Result<nat, HighscoreError>, afterThree: Result<nat, HighscoreError>)
    ensures first == Success(0) && afterFive == Success(5) && afterThree == Success(5)
  {
    var store := new HighscoreService.Start();
    first := store.GetHighscore(Absent);
    var r, file := store.RegisterScore(5, Absent, NoFault);
    afterFive := store.GetHighscore(file);
    r, file := store.RegisterScore(3, file, NoFault);
    afterThree := store.GetHighscore(file);
  }
}

=== FILE: options.dfy ===
/** Optional values and fallible results, as the Rust code uses `Option` and `Result`. */
module Options {

  datatype Option<+T> = None | Some(value: T) {
    /** `Option::unwrap_or`: the held value, or `default` when there is none. */
    function GetOr(default: T): T {
      match this
      case Some(v) => v
      case None => default
    }
  }

  datatype Result<+T, +E> = Success(value: T) | Failure(error: E)
}

=== FILE: snake.dfy ===
/** The snake: its body, its heading, pending growth and the throttle that paces its steps. */
module Snakes {
  import opened Geometry

  datatype MoveSnakeResult = DidNotMove | Moved | GameOver

  /** A living body: at least one part, all inside the grid, no cell twice, each part next to the one before it. */
  ghost predicate WellFormed(parts: seq<Pos>, columns: int, rows: int) {
    && |parts| >= 1
    && Distinct(parts)
    && (forall i :: 0 <= i < |parts| ==> InBounds(parts[i], columns, rows))
    && (forall i :: 0 <= i < |parts| - 1 ==> Adjacent(parts[i], parts[i + 1]))
  }

  /** The body after the tail step: the tail is dropped unless the snake has just eaten. */
  function Kept(parts: seq<Pos>, justAte: bool): seq<Pos>
    requires |parts| >= 1
  {
    if justAte then parts else parts[..|parts| - 1]
  }

  datatype StepOutcome = StepOutcome(result: MoveSnakeResult, parts: seq<Pos>)

  /**
   * One grid step of `move_snake`, once the throttle lets it through: the new front is the
   * head moved one cell, the tail goes (or growth is consumed), and the front is pushed only
   * when it is inside the grid and on no kept part.
   */
  function Step(parts: seq<Pos>, direction: Direction, justAte: bool, columns: int, rows: int): (r: StepOutcome)
    requires |parts| >= 1
    ensures r.result != DidNotMove
    ensures r.result == GameOver ==> r.parts == Kept(parts, justAte)
    ensures r.result == Moved ==> |r.parts| >= 1 && Adjacent(parts[0], r.parts[0]) && r.parts[1..] == Kept(parts, justAte)
  {
    var front := Advance(parts[0], direction);
    var kept := Kept(parts, justAte);
    if !InBounds(front, columns, rows) || front in kept then StepOutcome(GameOver, kept)
    else StepOutcome(Moved, [front] + kept)
  }

  /** A step moves: the front is the old head shifted one cell, the length grows by one exactly when the snake had just eaten, and otherwise the old tail is gone. */
  lemma StepMovedShape(parts: seq<Pos>, direction: Direction, justAte: bool, columns: int, rows: int)
    requires |parts| >= 1
    requires Step(parts, direction, justAte, columns, rows).result == Moved
    ensures var s := Step(parts, direction, justAte, columns, rows).parts;
      && s[0] == Advance(parts[0], direction)
      && Adjacent(parts[0], s[0])
      && |s| == |parts| + (if justAte then 1 else 0)
      && (justAte ==> s[1..] == parts)
      && (!justAte ==> s[1..] == parts[..|parts| - 1])
  {
  }

  /** Stepping off any edge ends the game and the off-grid cell is never pushed. */
  lemma StepOffGrid(parts: seq<Pos>, direction: Direction, justAte: bool, columns: int, rows: int)
    requires |parts| >= 1
    requires !InBounds(Advance(parts[0], direction), columns, rows)
    ensures Step(parts, direction, justAte, columns, rows) == StepOutcome(GameOver, Kept(parts, justAte))
  {
  }

  /** Stepping onto a part that is not the tail ends the game, growing or not. */
  lemma StepIntoBody(parts: seq<Pos>, direction: Direction, justAte: bool, columns: int, rows: int)
    requires |parts| >= 1
    requires Advance(parts[0], direction) in parts[..|parts| - 1]
    ensures Step(parts, direction, justAte, columns, rows).result == GameOver
  {
    var front := Advance(parts[0], direction);
    var i :| 0 <= i < |parts| - 1 && parts[..|parts| - 1][i] == front;
    assert Kept(parts, justAte)[i] == front;
  }

  /** Stepping onto a free cell inside the grid moves the snake. */
  lemma StepIntoFreeCell(parts: seq<Pos>, direction: Direction, justAte: bool, columns: int, rows: int)
    requires |parts| >= 1
    requires InBounds(Advance(parts[0], direction), columns, rows)
    requires Advance(parts[0], direction) !in parts
    ensures Step(parts, direction, justAte, columns, rows).result == Moved
  {
  }

  /**
   * The collision test runs after the tail step: stepping into the cell the tail is leaving
   * moves the snake when it is not growing and ends the game when it is.
   */
  lemma StepIntoVacatedTail(parts: seq<Pos>, direction: Direction, justAte: bool, columns: int, rows: int)
    requires WellFormed(parts, columns, rows)
    requires |parts| >= 2
    requires Advance(parts[0], direction) == parts[|parts| - 1]
    ensures Step(parts, direction, justAte, columns, rows).result == (if justAte then GameOver else Moved)
  {
    var n := |parts|;
    var front := parts[n - 1];
    if !justAte {
      assert Kept(parts, justAte) == parts[..n - 1];
      assert forall i :: 0 <= i < n - 1 ==> parts[i] != parts[n - 1];
    } else {
      assert Kept(parts, justAte)[n - 1] == front;
    }
  }

  /** A step that moves keeps the body well formed: in bounds, without repeated cells and connected. */
  lemma StepPreservesWellFormed(parts: seq<Pos>, direction: Direction, justAte: bool, columns: int, rows: int)
    requires WellFormed(parts, columns, rows)
    requires Step(parts, direction, justAte, columns, rows).result == Moved
    ensures WellFormed(Step(parts, direction, justAte, columns, rows).parts, columns, rows)
  {
    var front := Advance(parts[0], direction);
    var kept := Kept(parts, justAte);
    var s := [front] + kept;
    assert forall i :: 0 <= i < |kept| ==> kept[i] == parts[i];
    forall i, j | 0 <= i < j < |s| ensures s[i] != s[j] {
      if i == 0 {
        assert s[j] == kept[j - 1];
      } else {
        assert s[i] == parts[i - 1] && s[j] == parts[j - 1];
      }
    }
    forall i | 0 <= i < |s| - 1 ensures Adjacent(s[i], s[i + 1]) {
      if i == 0 {
        assert s[1] == parts[0];
      } else {
        assert s[i] == parts[i - 1] && s[i + 1] == parts[i];
      }
    }
  }

  class Snake {
    var parts: seq<Pos>
    var direction: Direction
    var justAte: bool
    const width: real
    /** The time between two steps (`update_after_delta`). */
    const updateAfterDelta: nat
    /** Time gathered since the last step; -1 is the sentinel "never stepped". */
    var accumulatedDelta: int

    ghost predicate Valid()
      reads this
    {
      accumulatedDelta >= -1
    }

    /** The throttle holds the next call back: a step happened and not enough time has gathered since. */
    predicate Throttled()
      reads this
    {
      accumulatedDelta != -1 && accumulatedDelta < updateAfterDelta
    }

    /** `Snake::new`: one part at `firstPart`, heading right, not growing, throttle at its sentinel. */
    constructor (firstPart: Pos, width: real, updateAfterDelta: nat)
      ensures parts == [firstPart] && direction == Right && !justAte
      ensures this.width == width && this.updateAfterDelta == updateAfterDelta
      ensures accumulatedDelta == -1
      ensures Valid() && !Throttled()
    {
      parts := [firstPart];
      this.width := width;
      direction := Right;
      justAte := false;
      this.updateAfterDelta := updateAfterDelta;
      accumulatedDelta := -1;
    }

    /**
     * `move_snake` with the frame's time `delta` passed in. While throttled only the
     * accumulator moves; otherwise it resets to 0 and the snake takes one `Step`.
     */
    method MoveSnake(delta: nat, columns: int, rows: int) returns (r: MoveSnakeResult)
      requires Valid()
      requires parts != [] || Throttled()
      modifies this
      ensures Valid()
      ensures direction == old(direction)
      ensures old(Throttled()) ==>
        && r == DidNotMove
        && accumulatedDelta == old(accumulatedDelta) + delta
        && parts == old(parts) && justAte == old(justAte)
      ensures !old(Throttled()) ==>
        && accumulatedDelta == 0
        && !justAte
        && StepOutcome(r, parts) == Step(old(parts), old(direction), old(justAte), columns, rows)
    {
      if accumulatedDelta != -1 && accumulatedDelta < updateAfterDelta {
        accumulatedDelta := accumulatedDelta + delta;
        return DidNotMove;
      } else {
        accumulatedDelta := 0;
      }

      var newFront := Advance(parts[0], direction);

      if !justAte {
        parts := parts[..|parts| - 1];
      } else {
        justAte := false;
      }

      if newFront.x < 0 || newFront.y < 0 {
        return GameOver;
      }

      var highX, highY := columns - 1, rows - 1;
      if newFront.x > highX || newFront.y > highY {
        return GameOver;
      }

      if WouldCollide(newFront.x, newFront.y) {
        return GameOver;
      }

      parts := [newFront] + parts;
      return Moved;
    }

    /** `would_collide`: some part is the cell (x, y). */
    function WouldCollide(x: int, y: int): (r: bool)
      reads this
      ensures r <==> Pos(x, y) in parts
    {
      Any(parts, (part: Pos) => part.x == x && part.y == y)
    }
  }

  /** From (10, 10) on a 20 x 20 grid, three steps without turning put the head at (13, 10), still one part long. */
  method ThreeStepsRight() returns (head: Pos, length: nat)
    ensures head == Pos(13, 10) && length == 1
  {
    var snake := new Snake(Pos(10, 10), 20.0, 200);
    var r := snake.MoveSnake(0, 20, 20);
    assert r == Moved;
    r := snake.MoveSnake(200, 20, 20);
    assert r == DidNotMove;
    r := snake.MoveSnake(200, 20, 20);
    r := snake.MoveSnake(200, 20, 20);
    r := snake.MoveSnake(200, 20, 20);
    assert r == Moved;
    head, length := snake.parts[0], |snake.parts|;
  }

  /** A one-part snake at (0, 5) heading left leaves the grid on its next step. */
  method LeftEdgeEndsGame() returns (r: MoveSnakeResult)
    ensures r == GameOver
  {
    var snake := new Snake(Pos(0, 5), 20.0, 200);
    snake.direction := Left;
    r := snake.MoveSnake(0, 20, 20);
  }
}

=== FILE: yield.dfy ===
/** The post-game delay: a one-shot accumulator that reports when enough time has gone by. */
module Yielding {
  import opened Options

  /** Each call adds fifty times the frame's time (yield.rs:18). */
  const DeltaScale: nat := 50

  datatype YieldStep = YieldStep(completed: bool, elapsed: Option<nat>)

  /**
   * One `completed_yield` call: the total is the stored time (none counts as 0) plus the
   * scaled delta; the call completes when the total is strictly above the threshold and
   * then forgets it, and otherwise stores it.
   */
  function YieldAfter(elapsed: Option<nat>, timeToYield: nat, delta: nat): (s: YieldStep)
    ensures !s.completed ==> s.elapsed.Some? && s.elapsed.value <= timeToYield
  {
    var total := elapsed.GetOr(0) + DeltaScale * delta;
    if total > timeToYield then YieldStep(true, None) else YieldStep(false, Some(total))
  }

  function Sum(deltas: seq<nat>): nat {
    if deltas == [] then 0 else deltas[0] + Sum(deltas[1..])
  }

  datatype YieldRun = YieldRun(results: seq<bool>, elapsed: Option<nat>)

  /** A series of calls, one per delta: what each returned and what is stored at the end. */
  function Run(elapsed: Option<nat>, timeToYield: nat, deltas: seq<nat>): (r: YieldRun)
    ensures |r.results| == |deltas|
    decreases |deltas|
  {
    if deltas == [] then YieldRun([], elapsed)
    else
      var s := YieldAfter(elapsed, timeToYield, deltas[0]);
      var rest := Run(s.elapsed, timeToYield, deltas[1..]);
      YieldRun([s.completed] + rest.results, rest.elapsed)
  }

  /**
   * While no call completes, the stored time is the starting time plus fifty times the sum of
   * the deltas, and it stays within the threshold; so the delay must end once the scaled
   * deltas add up to more than the threshold.
   */
  lemma {:induction false} QuietRunAccumulates(elapsed: Option<nat>, timeToYield: nat, deltas: seq<nat>)
    requires elapsed.Some? ==> elapsed.value <= timeToYield
    requires forall k :: 0 <= k < |deltas| ==> !Run(elapsed, timeToYield, deltas).results[k]
    ensures Run(elapsed, timeToYield, deltas).elapsed.GetOr(0) == elapsed.GetOr(0) + DeltaScale * Sum(deltas)
    ensures elapsed.GetOr(0) + DeltaScale * Sum(deltas) <= timeToYield
    decreases |deltas|
  {
    if deltas != [] {
      var s := YieldAfter(elapsed, timeToYield, deltas[0]);
      var r := Run(elapsed, timeToYield, deltas);
      assert !r.results[0];
      forall k | 0 <= k < |deltas| - 1
        ensures !Run(s.elapsed, timeToYield, deltas[1..]).results[k]
      {
        assert !r.results[k + 1];
      }
      QuietRunAccumulates(s.elapsed, timeToYield, deltas[1..]);
    }
  }

  /** Across a call that does not complete, the stored time never decreases. */
  lemma QuietStepGrows(elapsed: Option<nat>, timeToYield: nat, delta: nat)
    requires !YieldAfter(elapsed, timeToYield, delta).completed
    ensures YieldAfter(elapsed, timeToYield, delta).elapsed.value >= elapsed.GetOr(0)
  {
  }

  /** A call that completes forgets the gathered time: the next call starts its cycle from 0. */
  lemma CompletedRestartsCycle(elapsed: Option<nat>, timeToYield: nat, delta: nat, next: nat)
    requires YieldAfter(elapsed, timeToYield, delta).completed
    ensures YieldAfter(elapsed, timeToYield, delta).elapsed == None
    ensures YieldAfter(YieldAfter(elapsed, timeToYield, delta).elapsed, timeToYield, next) == YieldAfter(None, timeToYield, next)
    ensures elapsed.GetOr(0) + DeltaScale * delta > timeToYield
  {
  }

  class Yield {
    const timeToYield: nat
    var elapsedTime: Option<nat>

    /** A stored time never exceeds the threshold: a larger one would have completed. */
    ghost predicate Valid()
      reads this
    {
      elapsedTime.Some? ==> elapsedTime.value <= timeToYield
    }

    /** `Yield::new`: the threshold, with nothing gathered yet. */
    constructor (timeToYield: nat)
      ensures this.timeToYield == timeToYield && elapsedTime == None
      ensures Valid()
    {
      this.timeToYield := timeToYield;
      elapsedTime := None;
    }

    /** `completed_yield`, with the frame's time `delta` passed in. */
    method CompletedYield(delta: nat) returns (completed: bool)
      requires Valid()
      modifies this
      ensures Valid()
      ensures YieldStep(completed, elapsedTime) == YieldAfter(old(elapsedTime), timeToYield, delta)
    {
      var deltaTime := delta * DeltaScale;
      var newValue := elapsedTime.GetOr(0) + deltaTime;

      if newValue > timeToYield {
        elapsedTime := None;
        return true;
      } else {
        elapsedTime := Some(newValue);
        return false;
      }
    }
  }
}
